=== FILE: README.md ===
# PubMed paper fetcher: affiliation classifier and record assembly

This project models in Dafny the core of `fetch_paper_details` in
`pubmed_api.py`. That is everything the function does once the article
page has been scraped:

- **Classification.** Author names are paired with affiliation texts by
  position (`zip`). Each affiliation is tested with a case-insensitive
  keyword search. The academic keywords are tried first, then the
  commercial ones only if no academic keyword matched. Each pair is then
  filed as academic or non-academic, or dropped.
- **Record assembly.** The record has six keys: the PubMed id, title,
  publication date, non-academic authors, company affiliations and
  corresponding-author email. Missing fields get placeholder text. The two
  multi-valued fields are joined with `", "`.

Modules:

- `Wrappers`: `Option`, which stands for "the page element was found or not".
- `Strings`: ASCII lower-casing, substring search (`Contains`) and
  case-insensitive substring search (`ContainsIgnoringCase`). Each function
  is proved equal to a declarative ghost definition of an occurrence
  (`Occurs`, `CaselessOccurs`).
- `Joining`: `", ".join` and its inverse, the list parser `ParseList`.
- `Classifier`:
  - the two keyword sets of `pubmed_api.py:11-12`;
  - `SearchAlternation`, which models `re.search` over an alternation;
  - `Classify`, the academic-first test.

  The keyword sets are carried in a `Rules` value. `Standard` holds the
  source's constants, so every property is proved for any keyword sets and
  applies to the source's in particular.
- `Collector`:
  - the `zip`;
  - the classification loop, both as a recursive function (`Collect`,
    `Classified`) and as the imperative loop the source writes
    (`ClassificationLoop`);
  - the lemmas relating the output lists to the input positions.
- `PaperRecord`: the returned dictionary, modelled as an ordered sequence
  of key/value entries (`Assemble`, and `PaperDetails` with the source's
  keyword sets).
- `Scenarios`: concrete affiliations under the source's own keyword sets.

The scraped page arrives as a `Page` value. It holds what BeautifulSoup
found: the title and citation text, the corresponding-author email, the
author names and the affiliation texts. The lists keep document order, and
each text is already stripped.

The loop visits the pairs in `zip` order (`pubmed_api.py:87`), so both
output lists are in page order, and entry k of the author list and entry k
of the company list come from the same pair.

## Model

| member | source | states |
|---|---|---|
| Strings.LowerChar | pubmed_api.py:88 | Folding one character for `re.IGNORECASE`: an upper-case ASCII letter becomes a lower-case one, and no upper-case letter is left after folding. |
| Strings.CaselessChar | pubmed_api.py:88 | Two characters match under `re.IGNORECASE` folding exactly when they are equal or are the same ASCII letter in the other case. |
| Strings.Lower | pubmed_api.py:88 | Folding a text keeps its length and folds each character in place. |
| Strings.Contains | pubmed_api.py:88 | The substring test is true exactly when the pattern occurs at some position of the text. |
| Strings.ContainsIgnoringCase | pubmed_api.py:88 | The search made case-insensitive by lower-casing both sides is true exactly when some window of the text equals the pattern letter for letter, ignoring ASCII case (the `re.IGNORECASE` flag). |
| Strings.MissingLetter | pubmed_api.py:88-90 | A keyword with a letter that the text lacks in both cases cannot be found in that text. |
| Strings.SplitAtForeignChar | pubmed_api.py:88-90 | A match cannot straddle a character that matches none of the keyword's letters. |
| Classifier.SearchAlternation | pubmed_api.py:11-12 | Searching for the alternation of the keywords finds a match exactly when some single keyword occurs, ignoring case. |
| Classifier.Classify | pubmed_api.py:87-92 | Academic exactly when an academic keyword occurs. Non-academic exactly when none does and a commercial keyword does. Unclassified exactly when neither occurs. |
| Collector.Zip | pubmed_api.py:87 | `zip` yields min(#authors, #affiliations) pairs, and pair i is (author i, affiliation i). |
| Collector.File | pubmed_api.py:88-92 | The loop body for one pair; it carries no contract of its own, and its meaning is given by `Collector.FileByKeywords` and `Collector.CommercialBucketsArePositions`. |
| Collector.Collect | pubmed_api.py:87-92 | The loop over the pairs, for any categorizing function: the non-academic list and the company list always have equal length; which entries they hold is stated by `Collector.CommercialBucketsArePositions` and `Collector.AcademicBucketIsPositions`. |
| Collector.Classified | pubmed_api.py:83-92 | The three lists built from the author and affiliation lists with the keyword classifier; it carries no contract of its own, and `Collector.NonAcademicSelection` states its meaning. |
| Collector.CollectBound | pubmed_api.py:87-92 | Each pair adds at most one author to one of the two author lists. |
| Collector.Positions | pubmed_api.py:87-92 | The positions of one category are strictly increasing, each has that category, and every pair of that category is among them. |
| Collector.CommercialBucketsArePositions | pubmed_api.py:90-92 | The non-academic list and the company list hold, in page order, the author and the affiliation at exactly the non-academic positions, so entry k of each comes from the same pair. |
| Collector.AcademicBucketIsPositions | pubmed_api.py:88-89 | The academic list holds, in page order, the author at exactly the academic positions. |
| Collector.CollectConcat | pubmed_api.py:87-92 | The loop processes the pairs independently: running it over two stretches and concatenating the results gives the same lists. |
| Collector.UnclassifiedContributesNothing | pubmed_api.py:88-92 | A pair that matches neither branch leaves all three lists unchanged. |
| Collector.PositionsPartition | pubmed_api.py:88-92 | Every pair falls in exactly one of the three categories. |
| Collector.FileByKeywords | pubmed_api.py:88-92 | One iteration of the loop body appends to the list that the academic-first classification chooses. Non-academic pairs append the author and the affiliation together. |
| Collector.ClassificationLoop | pubmed_api.py:83-92 | The imperative loop over `zip(authors, affiliations)` builds exactly the three lists of the recursive definition. |
| Collector.NonAcademicSelection | pubmed_api.py:87-92 | There is an increasing index list that selects exactly the commercial-only pairs, and the two output lists are the authors and affiliations at those indices. |
| Collector.ListedMeansCommercialPair | pubmed_api.py:90-91 | Every name in the non-academic list belongs to some author paired with an affiliation that has a commercial keyword and no academic one. |
| Collector.CommercialPairIsListed | pubmed_api.py:90-91 | Every author paired with an affiliation that has a commercial keyword and no academic one appears in the non-academic list. |
| Collector.NonAcademicMembership | pubmed_api.py:90-91 | A name is in the non-academic list if and only if some author of that name is paired with an affiliation that has a commercial keyword and no academic one. |
| Collector.AcademicTakesPrecedence | pubmed_api.py:88-90 | An author whose paired affiliations all mention an academic keyword is never listed as non-academic, whatever commercial keywords they also mention. |
| Collector.CompaniesAreCommercialOnly | pubmed_api.py:90-92 | Every listed company affiliation has a commercial keyword and no academic one. |
| Collector.UnpairedEntriesIgnored | pubmed_api.py:87 | Authors or affiliations beyond the shorter list do not change any output list. |
| Collector.UnclassifiedPairDropped | pubmed_api.py:88-92 | Deleting a pair that matches neither keyword set from both input lists changes no output list, so such pairs are dropped silently. |
| Collector.PairsPartitioned | pubmed_api.py:87-92 | #academic + #non-academic + #dropped = min(#authors, #affiliations). |
| Joining.Join | pubmed_api.py:106-107 | `", ".join`; it carries no contract of its own, and `Joining.ParseJoinRoundTrip` states that it loses nothing on comma-free items. |
| Joining.ParseJoinRoundTrip | pubmed_api.py:106-107 | Splitting a `", "`-joined non-empty list at its commas gives the list back when no item contains a comma. |
| PaperRecord.Lookup | pubmed_api.py:102-109 | A key is found exactly when some entry carries it. |
| PaperRecord.LookupFindsFirst | pubmed_api.py:102-109 | Lookup returns the value of the first entry carrying the key. |
| PaperRecord.LookupByRecordKey | pubmed_api.py:102-109 | In a sequence keyed like the record, each of the six keys finds the entry at its own position, because the keys are distinct. |
| PaperRecord.ListField | pubmed_api.py:106-107 | The join-or-placeholder value of a list field; it carries no contract of its own, and `PaperRecord.ListFieldRoundTrip` and `PaperRecord.PlaceholderIsAmbiguous` state what it keeps and what it conflates. |
| PaperRecord.ListFieldRoundTrip | pubmed_api.py:106-107 | A multi-valued field reads back as exactly its items, when no item has a comma and the list is not the single item "Not Available". |
| PaperRecord.PlaceholderIsAmbiguous | pubmed_api.py:106 | An empty author list and a list with one author named "Not Available" give the same field text. |
| PaperRecord.CommaInItemIsAmbiguous | pubmed_api.py:107 | The join is lossy for items that contain ", ": the single affiliation "Princeton, NJ" gives the same field text as the two items "Princeton" and "NJ". |
| PaperRecord.EmailField | pubmed_api.py:108 | The conditional email expression returns its input unchanged. |
| PaperRecord.Assemble | pubmed_api.py:44-109 | The record has the six keys in order. The id is stored as given. The title is the page's title, or "No Title" when absent. The date is the citation text, or "Not Available". The email is the page's email, or "Not Available". The two list fields are the joined classified lists, or "Not Available" when empty. |
| PaperRecord.PaperDetails | pubmed_api.py:32-109 | `fetch_paper_details` after the scraping; it carries no contract of its own, and its meaning is `PaperRecord.Assemble`'s contract with the source's keyword sets (`Standard`). |
| PaperRecord.NothingCommercialMeansPlaceholders | pubmed_api.py:106-107 | When no paired affiliation is commercial-only, both list fields are "Not Available". |
| PaperRecord.AcademicPageMeansPlaceholders | pubmed_api.py:88-89 | A page whose every affiliation mentions an academic keyword lists no non-academic author and no company. |
| PaperRecord.SoleCommercialAuthorListed | pubmed_api.py:90-92 | One author with one commercial-only affiliation appears, unjoined, in both list fields. |
| PaperRecord.NoPairsMeansPlaceholders | pubmed_api.py:87 | With no authors or no affiliations, both list fields are "Not Available". |
| PaperRecord.RecordListsReadBack | pubmed_api.py:87-107 | Parsing the two list fields back gives exactly the authors and affiliations of the commercial-only pairs, aligned and in page order. This needs comma-free names and texts and no item equal to the placeholder. |
| PaperRecord.RecordIgnoresUnpaired | pubmed_api.py:87 | The record is unchanged when both input lists are cut to the shorter length. |
| PaperRecord.FixedSchema | pubmed_api.py:102-109 | Every record has the same six keys in the same order, whatever the page held. |
| Scenarios.AcmeIsCommercialOnly | pubmed_api.py:11-12 | "Acme Pharmaceuticals Inc" has a commercial keyword and no academic one. |
| Scenarios.JaneDoeAtAcme | pubmed_api.py:87-107 | A page with author Jane Doe at "Acme Pharmaceuticals Inc" yields a record naming her and that company. |
| Scenarios.OncologyIsAcademic | pubmed_api.py:11 | "Department of Oncology, Example University" mentions an academic keyword. |
| Scenarios.OncologyAuthorNotListed | pubmed_api.py:88-89 | Its sole author is not listed, and both list fields are "Not Available". |
| Scenarios.PrincetonCountsAsCompany | pubmed_api.py:12 | Because "inc" matches as a bare substring, "Princeton, NJ" is classified as a company affiliation. |

## Left out

- HTTP requests, `aiohttp` sessions and `async` (`pubmed_api.py:14-39`): I/O. The non-200 status exceptions are part of this and are also left out. The page text is an input to the model.
- `fetch_pubmed_papers` and its XML id extraction (`pubmed_api.py:14-30`): network I/O and XML parsing, outside the classifier and record core.
- HTML parsing with BeautifulSoup (`pubmed_api.py:41-80`) is not modelled. This includes removing the `<sup class="key">` markers, skipping authors without a name link, and `get_text(strip=True)`. Its results are the fields of `Page`.
- Case-insensitive matching is modelled as ASCII case folding. Python's `re.IGNORECASE` also folds non-ASCII letters, which this model does not.
- The keyword search is modelled as "some keyword occurs as a substring". The regular-expression engine itself is not modelled.
- `academic_authors` (`pubmed_api.py:85,89`) is built and never returned. The model builds it too (`Buckets.academic`), and the record does not use it.
- `cli.py` is not part of this model: argument parsing, the per-id loop, CSV export and printing.
- Classify is not evaluated on concrete literal texts under the standard keyword sets. The scenarios state the same facts through `Mentions` and `CommercialOnly`.

=== FILE: classifier.dfy ===
/**
 The keyword test of `fetch_paper_details`: one affiliation text is sorted
 into academic, non-academic or neither by case-insensitive keyword search.
 */
module Classifier {
  import opened Strings

  /** Words that mark an affiliation as academic. */
  const AcademicKeywords: seq<string> :=
    ["university", "college", "institute", "department", "school", "research center", "hospital"]

  /** Words that mark an affiliation as commercial. */
  const NonAcademicKeywords: seq<string> :=
    ["pharma", "biotech", "inc", "corp", "limited", "company", "laboratories", "pharmaceutical"]

  /**
   The two keyword sets a classification runs with. The source fixes them
   as module constants; keeping them a parameter lets every property below
   be stated for any keyword sets, and `Standard` is the source's choice.
   */
  datatype Rules = Rules(academic: seq<string>, commercial: seq<string>)

  const Standard := Rules(AcademicKeywords, NonAcademicKeywords)

  /** Some keyword of `keywords` occurs in `text`, ignoring ASCII case. */
  ghost predicate Mentions(text: string, keywords: seq<string>)
  {
    exists j :: 0 <= j < |keywords| && CaselessOccurs(text, keywords[j])
  }

  /**
   A case-insensitive search for an alternation of plain words with no
   anchors: it finds a match exactly when one of the words occurs.
   */
  function SearchAlternation(text: string, keywords: seq<string>): (found: bool)
    ensures found <==> Mentions(text, keywords)
    decreases |keywords|
  {
    if |keywords| == 0 then false
    else if ContainsIgnoringCase(text, keywords[0]) then true
    else
      var rest := SearchAlternation(text, keywords[1..]);
      assert Mentions(text, keywords) <==> Mentions(text, keywords[1..]) by {
        if Mentions(text, keywords) {
          var j :| 0 <= j < |keywords| && CaselessOccurs(text, keywords[j]);
          assert j > 0 && keywords[1..][j - 1] == keywords[j];
        }
        if Mentions(text, keywords[1..]) {
          var j :| 0 <= j < |keywords[1..]| && CaselessOccurs(text, keywords[1..][j]);
          assert keywords[j + 1] == keywords[1..][j];
        }
      }
      rest
  }

  /** The three outcomes of classifying one affiliation. */
  datatype Category = Academic | NonAcademic | Unclassified

  /**
   The academic test runs first; the commercial test is consulted only when
   the academic one fails. So an affiliation is academic exactly when an
   academic keyword occurs in it, non-academic exactly when a commercial
   keyword occurs and no academic one does, and unclassified otherwise.
   */
  function Classify(affiliation: string, rules: Rules): (c: Category)
    ensures c == Academic <==> Mentions(affiliation, rules.academic)
    ensures c == NonAcademic <==> !Mentions(affiliation, rules.academic) && Mentions(affiliation, rules.commercial)
    ensures c == Unclassified <==> !Mentions(affiliation, rules.academic) && !Mentions(affiliation, rules.commercial)
  {
    if SearchAlternation(affiliation, rules.academic) then Academic
    else if SearchAlternation(affiliation, rules.commercial) then NonAcademic
    else Unclassified
  }
}

=== FILE: collect.dfy ===
/**
 The classification loop of `fetch_paper_details`: authors and affiliation
 texts are paired by position, each pair is filed by the category of its
 affiliation, and the non-academic authors are collected together with
 their affiliation texts.

 The loop is first stated for any categorizing function, so that its
 bookkeeping can be reasoned about apart from the keyword search; `Classified`
 then runs it with the keyword classifier.
 */
module Collector {
  import opened Classifier

  /** One author's display name and the affiliation text at the same position. */
  datatype Pair = Pair(author: string, affiliation: string)

  function Min(a: nat, b: nat): nat
  {
    if a < b then a else b
  }

  /** Positional pairing that stops at the end of the shorter list. */
  function Zip(authors: seq<string>, affiliations: seq<string>): (ps: seq<Pair>)
    ensures |ps| == Min(|authors|, |affiliations|)
    ensures forall i :: 0 <= i < |ps| ==> ps[i] == Pair(authors[i], affiliations[i])
  {
    if |authors| == 0 || |affiliations| == 0 then []
    else [Pair(authors[0], affiliations[0])] + Zip(authors[1..], affiliations[1..])
  }

  /** The three lists the classification loop builds. */
  datatype Buckets = Buckets(nonAcademic: seq<string>, companies: seq<string>, academic: seq<string>)

  const NoBuckets := Buckets([], [], [])

  /** Files one more pair under its category, appending as the loop body does. */
  function File(b: Buckets, p: Pair, c: Category): Buckets
  {
    match c
    case Academic => b.(academic := b.academic + [p.author])
    case NonAcademic => b.(nonAcademic := b.nonAcademic + [p.author], companies := b.companies + [p.affiliation])
    case Unclassified => b
  }

  /** Runs the loop over the pairs in order, filing each by `categorize` of its affiliation. */
  function Collect(ps: seq<Pair>, categorize: string -> Category): (b: Buckets)
    ensures |b.nonAcademic| == |b.companies|
  {
    if |ps| == 0 then NoBuckets
    else
      var n := |ps| - 1;
      File(Collect(ps[..n], categorize), ps[n], categorize(ps[n].affiliation))
  }

  /** Each pair lands in at most one of the two author lists. */
  lemma {:induction false} CollectBound(ps: seq<Pair>, categorize: string -> Category)
    ensures |Collect(ps, categorize).nonAcademic| + |Collect(ps, categorize).academic| <= |ps|
  {
    if |ps| > 0 {
      CollectBound(ps[..|ps| - 1], categorize);
    }
  }

  /**
   The positions, in increasing order, of the pairs whose affiliation falls
   into category `c`.
   */
  ghost function Positions(ps: seq<Pair>, categorize: string -> Category, c: Category): (idx: seq<nat>)
    ensures forall k :: 0 <= k < |idx| ==> idx[k] < |ps| && categorize(ps[idx[k]].affiliation) == c
    ensures forall k, l :: 0 <= k < l < |idx| ==> idx[k] < idx[l]
    ensures forall j :: 0 <= j < |ps| && categorize(ps[j].affiliation) == c ==> j in idx
  {
    if |ps| == 0 then []
    else
      var n := |ps| - 1;
      var front := Positions(ps[..n], categorize, c);
      assert forall j :: 0 <= j < n && categorize(ps[j].affiliation) == c ==> j in front by {
        forall j | 0 <= j < n && categorize(ps[j].affiliation) == c ensures j in front {
          assert ps[..n][j] == ps[j];
        }
      }
      assert forall k :: 0 <= k < |front| ==> ps[..n][front[k]] == ps[front[k]];
      front + (if categorize(ps[n].affiliation) == c then [n] else [])
  }

  /**
   The non-academic and company lists hold, in order, the author and the
   affiliation of exactly the pairs filed as non-academic.
   */
  lemma {:induction false} CommercialBucketsArePositions(ps: seq<Pair>, categorize: string -> Category)
    ensures var b, na := Collect(ps, categorize), Positions(ps, categorize, NonAcademic);
      && |b.nonAcademic| == |na|
      && forall k :: 0 <= k < |na| ==> b.nonAcademic[k] == ps[na[k]].author && b.companies[k] == ps[na[k]].affiliation
  {
    if |ps| > 0 {
      var n := |ps| - 1;
      var front := ps[..n];
      CommercialBucketsArePositions(front, categorize);
      var prev, b := Collect(front, categorize), Collect(ps, categorize);
      var cat := categorize(ps[n].affiliation);
      assert b == File(prev, ps[n], cat);
      var na, na' := Positions(front, categorize, NonAcademic), Positions(ps, categorize, NonAcademic);
      assert na' == na + (if cat == NonAcademic then [n] else []);
      forall k | 0 <= k < |na'|
        ensures b.nonAcademic[k] == ps[na'[k]].author && b.companies[k] == ps[na'[k]].affiliation
      {
        if k < |na| {
          assert na'[k] == na[k] && ps[na[k]] == front[na[k]];
        }
      }
    }
  }

  /** The academic list holds, in order, the authors of exactly the pairs filed as academic. */
  lemma {:induction false} AcademicBucketIsPositions(ps: seq<Pair>, categorize: string -> Category)
    ensures var b, ac := Collect(ps, categorize), Positions(ps, categorize, Academic);
      && |b.academic| == |ac|
      && forall k :: 0 <= k < |ac| ==> b.academic[k] == ps[ac[k]].author
  {
    if |ps| > 0 {
      var n := |ps| - 1;
      var front := ps[..n];
      AcademicBucketIsPositions(front, categorize);
      var prev, b := Collect(front, categorize), Collect(ps, categorize);
      var cat := categorize(ps[n].affiliation);
      assert b == File(prev, ps[n], cat);
      var ac, ac' := Positions(front, categorize, Academic), Positions(ps, categorize, Academic);
      assert ac' == ac + (if cat == Academic then [n] else []);
      forall k | 0 <= k < |ac'|
        ensures b.academic[k] == ps[ac'[k]].author
      {
        if k < |ac| {
          assert ac'[k] == ac[k] && ps[ac[k]] == front[ac[k]];
        }
      }
    }
  }

  /** The lists of `x` followed by those of `y`. */
  function Merge(x: Buckets, y: Buckets): Buckets
  {
    Buckets(x.nonAcademic + y.nonAcademic, x.companies + y.companies, x.academic + y.academic)
  }

  /** Running the loop over two stretches of pairs is running it over each and concatenating. */
  lemma {:induction false} CollectConcat(xs: seq<Pair>, ys: seq<Pair>, categorize: string -> Category)
    ensures Collect(xs + ys, categorize) == Merge(Collect(xs, categorize), Collect(ys, categorize))
    decreases |ys|
  {
    var cx := Collect(xs, categorize);
    if |ys| == 0 {
      assert xs + ys == xs;
      assert Merge(cx, NoBuckets) == cx;
    } else {
      var n := |ys| - 1;
      var last := ys[n];
      assert (xs + ys)[..|xs + ys| - 1] == xs + ys[..n];
      assert (xs + ys)[|xs + ys| - 1] == last;
      CollectConcat(xs, ys[..n], categorize);
      var c := categorize(last.affiliation);
      var cy := Collect(ys[..n], categorize);
      assert File(Merge(cx, cy), last, c) == Merge(cx, File(cy, last, c));
    }
  }

  /**
   A pair whose affiliation is unclassified contributes nothing: removing it
   leaves all three lists unchanged.
   */
  lemma UnclassifiedContributesNothing(before: seq<Pair>, u: Pair, after: seq<Pair>, categorize: string -> Category)
    requires categorize(u.affiliation) == Unclassified
    ensures Collect(before + [u] + after, categorize) == Collect(before + after, categorize)
  {
    CollectConcat(before + [u], after, categorize);
    CollectConcat(before, [u], categorize);
    CollectConcat(before, after, categorize);
    assert [u][..0] == [];
    assert Collect([u], categorize) == NoBuckets;
    var cb := Collect(before, categorize);
    assert Merge(cb, NoBuckets) == cb;
  }

  /** Every pair is in exactly one category, so the three position lists cover the input. */
  lemma {:induction false} PositionsPartition(ps: seq<Pair>, categorize: string -> Category)
    ensures |Positions(ps, categorize, Academic)| + |Positions(ps, categorize, NonAcademic)|
          + |Positions(ps, categorize, Unclassified)| == |ps|
  {
    if |ps| > 0 {
      PositionsPartition(ps[..|ps| - 1], categorize);
    }
  }

  /*************************************************************************
   The loop as the source runs it: the keyword classifier on zipped lists.
   *************************************************************************/

  /** The keyword classifier as a categorizing function. */
  function ByKeywords(rules: Rules): string -> Category
  {
    affiliation => Classify(affiliation, rules)
  }

  /** The three lists `fetch_paper_details` builds from the author and affiliation lists. */
  function Classified(authors: seq<string>, affiliations: seq<string>, rules: Rules): Buckets
  {
    Collect(Zip(authors, affiliations), ByKeywords(rules))
  }

  /** Collecting one more pair files it on top of what the earlier pairs produced. */
  lemma CollectStep(ps: seq<Pair>, i: nat, categorize: string -> Category)
    requires i < |ps|
    ensures Collect(ps[..i + 1], categorize) == File(Collect(ps[..i], categorize), ps[i], categorize(ps[i].affiliation))
  {
    assert ps[..i + 1][..i] == ps[..i];
  }

  /**
   One pass of the loop body: the academic search first, and the commercial
   search only when it fails, appending to the lists as the source does.
   */
  method FileByKeywords(nonAcademic: seq<string>, companies: seq<string>, academic: seq<string>,
                        author: string, affiliation: string, rules: Rules)
    returns (nonAcademic': seq<string>, companies': seq<string>, academic': seq<string>)
    ensures Buckets(nonAcademic', companies', academic') ==
            File(Buckets(nonAcademic, companies, academic), Pair(author, affiliation), Classify(affiliation, rules))
  {
    nonAcademic', companies', academic' := nonAcademic, companies, academic;
    if SearchAlternation(affiliation, rules.academic) {
      academic' := academic + [author];
    } else if SearchAlternation(affiliation, rules.commercial) {
      nonAcademic' := nonAcademic + [author];
      companies' := companies + [affiliation];
    }
  }

  /** The loop over `zip(authors, affiliations)` written as the source writes it. */
  method ClassificationLoop(authors: seq<string>, affiliations: seq<string>, rules: Rules)
    returns (nonAcademic: seq<string>, companies: seq<string>, academic: seq<string>)
    ensures Buckets(nonAcademic, companies, academic) == Classified(authors, affiliations, rules)
  {
    nonAcademic, companies, academic := [], [], [];
    ghost var ps := Zip(authors, affiliations);
    var i := 0;
    while i < |authors| && i < |affiliations|
      invariant i <= |ps|
      invariant Buckets(nonAcademic, companies, academic) == Collect(ps[..i], ByKeywords(rules))
    {
      CollectStep(ps, i, ByKeywords(rules));
      assert ps[i] == Pair(authors[i], affiliations[i]);
      assert ByKeywords(rules)(affiliations[i]) == Classify(affiliations[i], rules);
      nonAcademic, companies, academic :=
        FileByKeywords(nonAcademic, companies, academic, authors[i], affiliations[i], rules);
      i := i + 1;
    }
    assert ps[..i] == ps;
  }

  /** The affiliation has a commercial keyword and no academic one. */
  ghost predicate CommercialOnly(text: string, rules: Rules)
  {
    !Mentions(text, rules.academic) && Mentions(text, rules.commercial)
  }

  /**
   `idx` lists, in increasing order, exactly the positions paired by `zip`
   whose affiliation is commercial-only, and `names` and `companies` hold the
   author and the affiliation at those positions.
   */
  ghost predicate SelectsCommercial(idx: seq<nat>, authors: seq<string>, affiliations: seq<string>, rules: Rules,
                                    names: seq<string>, companies: seq<string>)
  {
    && |idx| == |names| == |companies|
    && (forall k :: 0 <= k < |idx| ==>
          && idx[k] < |authors| && idx[k] < |affiliations|
          && names[k] == authors[idx[k]] && companies[k] == affiliations[idx[k]])
    && (forall k, l :: 0 <= k < l < |idx| ==> idx[k] < idx[l])
    && (forall j :: 0 <= j < |authors| && j < |affiliations| ==>
          (j in idx <==> CommercialOnly(affiliations[j], rules)))
  }

  /**
   The non-academic author list and the company list are the authors and
   affiliations of exactly the commercial-only pairs, position-aligned and in
   input order.
   */
  lemma NonAcademicSelection(authors: seq<string>, affiliations: seq<string>, rules: Rules)
    ensures var b := Classified(authors, affiliations, rules);
      exists idx :: SelectsCommercial(idx, authors, affiliations, rules, b.nonAcademic, b.companies)
  {
    var ps := Zip(authors, affiliations);
    var b := Classified(authors, affiliations, rules);
    var na := Positions(ps, ByKeywords(rules), NonAcademic);
    CommercialBucketsArePositions(ps, ByKeywords(rules));
    forall j | 0 <= j < |authors| && j < |affiliations|
      ensures j in na <==> CommercialOnly(affiliations[j], rules)
    {
      assert ps[j].affiliation == affiliations[j];
    }
    assert SelectsCommercial(na, authors, affiliations, rules, b.nonAcademic, b.companies);
  }

  /** A listed non-academic author is paired with a commercial-only affiliation. */
  lemma ListedMeansCommercialPair(authors: seq<string>, affiliations: seq<string>, rules: Rules, name: string)
    requires name in Classified(authors, affiliations, rules).nonAcademic
    ensures exists j :: 0 <= j < |authors| && j < |affiliations| && authors[j] == name
                        && CommercialOnly(affiliations[j], rules)
  {
    var ps := Zip(authors, affiliations);
    var b := Classified(authors, affiliations, rules);
    var na := Positions(ps, ByKeywords(rules), NonAcademic);
    CommercialBucketsArePositions(ps, ByKeywords(rules));
    var k :| 0 <= k < |b.nonAcademic| && b.nonAcademic[k] == name;
    var j := na[k];
    assert j < |ps| && ps[j] == Pair(authors[j], affiliations[j]);
    assert Classify(affiliations[j], rules) == NonAcademic;
    assert authors[j] == name && CommercialOnly(affiliations[j], rules);
  }

  /** An author paired with a commercial-only affiliation is listed as non-academic. */
  lemma CommercialPairIsListed(authors: seq<string>, affiliations: seq<string>, rules: Rules, j: nat)
    requires j < |authors| && j < |affiliations| && CommercialOnly(affiliations[j], rules)
    ensures authors[j] in Classified(authors, affiliations, rules).nonAcademic
  {
    var ps := Zip(authors, affiliations);
    var b := Classified(authors, affiliations, rules);
    var na := Positions(ps, ByKeywords(rules), NonAcademic);
    CommercialBucketsArePositions(ps, ByKeywords(rules));
    assert ps[j] == Pair(authors[j], affiliations[j]);
    assert ByKeywords(rules)(ps[j].affiliation) == NonAcademic;
    assert j in na;
    var k :| 0 <= k < |na| && na[k] == j;
    assert b.nonAcademic[k] == authors[j];
  }

  /**
   A name is in the non-academic list exactly when some author with that
   name is paired with a commercial-only affiliation.
   */
  lemma NonAcademicMembership(authors: seq<string>, affiliations: seq<string>, rules: Rules, name: string)
    ensures name in Classified(authors, affiliations, rules).nonAcademic
        <==> exists j :: 0 <= j < |authors| && j < |affiliations| && authors[j] == name
                         && CommercialOnly(affiliations[j], rules)
  {
    if name in Classified(authors, affiliations, rules).nonAcademic {
      ListedMeansCommercialPair(authors, affiliations, rules, name);
    }
    if exists j :: 0 <= j < |authors| && j < |affiliations| && authors[j] == name
                   && CommercialOnly(affiliations[j], rules) {
      var j :| 0 <= j < |authors| && j < |affiliations| && authors[j] == name
               && CommercialOnly(affiliations[j], rules);
      CommercialPairIsListed(authors, affiliations, rules, j);
    }
  }

  /**
   Precedence: an author whose every paired affiliation mentions an academic
   keyword never appears in the non-academic list, whatever commercial
   keywords those affiliations also mention.
   */
  lemma AcademicTakesPrecedence(authors: seq<string>, affiliations: seq<string>, rules: Rules, name: string)
    requires forall j :: 0 <= j < |authors| && j < |affiliations| && authors[j] == name
                         ==> Mentions(affiliations[j], rules.academic)
    ensures name !in Classified(authors, affiliations, rules).nonAcademic
  {
    NonAcademicMembership(authors, affiliations, rules, name);
  }

  /** Every listed company affiliation has a commercial keyword and no academic one. */
  lemma CompaniesAreCommercialOnly(authors: seq<string>, affiliations: seq<string>, rules: Rules)
    ensures forall k :: 0 <= k < |Classified(authors, affiliations, rules).companies| ==>
              CommercialOnly(Classified(authors, affiliations, rules).companies[k], rules)
  {
    var b := Classified(authors, affiliations, rules);
    NonAcademicSelection(authors, affiliations, rules);
    var idx :| SelectsCommercial(idx, authors, affiliations, rules, b.nonAcademic, b.companies);
    forall k | 0 <= k < |b.companies| ensures CommercialOnly(b.companies[k], rules) {
      assert idx[k] in idx;
    }
  }

  /**
   Authors or affiliations beyond the shorter list are never looked at:
   cutting both lists to the shorter length changes nothing.
   */
  lemma UnpairedEntriesIgnored(authors: seq<string>, affiliations: seq<string>, rules: Rules)
    ensures var m := Min(|authors|, |affiliations|);
      Classified(authors, affiliations, rules) == Classified(authors[..m], affiliations[..m], rules)
  {
    var m := Min(|authors|, |affiliations|);
    assert Zip(authors, affiliations) == Zip(authors[..m], affiliations[..m]);
  }

  /**
   An affiliation matching neither keyword set is dropped silently: removing
   that author and affiliation from both lists leaves every output list as
   it was.
   */
  lemma UnclassifiedPairDropped(authors: seq<string>, affiliations: seq<string>, rules: Rules, j: nat)
    requires j < |authors| && j < |affiliations|
    requires !Mentions(affiliations[j], rules.academic) && !Mentions(affiliations[j], rules.commercial)
    ensures Classified(authors, affiliations, rules)
         == Classified(authors[..j] + authors[j + 1..], affiliations[..j] + affiliations[j + 1..], rules)
  {
    var ps := Zip(authors, affiliations);
    var ps' := Zip(authors[..j] + authors[j + 1..], affiliations[..j] + affiliations[j + 1..]);
    assert ps == ps[..j] + [ps[j]] + ps[j + 1..];
    var xs, ys := authors[..j] + authors[j + 1..], affiliations[..j] + affiliations[j + 1..];
    forall i | 0 <= i < |ps'| ensures ps'[i] == (ps[..j] + ps[j + 1..])[i] {
      if i >= j {
        assert xs[i] == authors[i + 1] && ys[i] == affiliations[i + 1];
      }
    }
    assert ps' == ps[..j] + ps[j + 1..];
    UnclassifiedContributesNothing(ps[..j], ps[j], ps[j + 1..], ByKeywords(rules));
  }

  /**
   Three-way partition: of the `min(|authors|, |affiliations|)` pairs, each is
   filed as academic, as non-academic, or dropped, and the counts add up.
   */
  lemma PairsPartitioned(authors: seq<string>, affiliations: seq<string>, rules: Rules)
    ensures var b, ps := Classified(authors, affiliations, rules), Zip(authors, affiliations);
      |b.academic| + |b.nonAcademic| + |Positions(ps, ByKeywords(rules), Unclassified)|
        == Min(|authors|, |affiliations|)
  {
    var ps := Zip(authors, affiliations);
    CommercialBucketsArePositions(ps, ByKeywords(rules));
    AcademicBucketIsPositions(ps, ByKeywords(rules));
    PositionsPartition(ps, ByKeywords(rules));
  }
}

=== FILE: joining.dfy ===
/**
 The ", "-join used for the record's multi-valued fields, and the parser
 that splits such a field back into its items.
 */
module Joining {

  /** The separator placed between the items of a multi-valued field. */
  const Separator: string := ", "

  /** `sep.join(xs)`: the items in order with `sep` between neighbours. */
  function Join(sep: string, xs: seq<string>): string
    decreases |xs|
  {
    if |xs| == 0 then ""
    else if |xs| == 1 then xs[0]
    else xs[0] + sep + Join(sep, xs[1..])
  }

  /** Index of the first `c` in `s`. */
  function FirstIndex(s: string, c: char): (i: nat)
    requires c in s
    ensures i < |s| && s[i] == c
    ensures c !in s[..i]
  {
    if s[0] == c then 0 else 1 + FirstIndex(s[1..], c)
  }

  /**
   Reads a joined field back: cuts at each ',' and drops the single space
   the separator puts after it.
   */
  function ParseList(s: string): (xs: seq<string>)
    ensures |xs| >= 1
    decreases |s|
  {
    if ',' !in s then [s]
    else
      var i := FirstIndex(s, ',');
      var rest := s[i + 1..];
      var rest' := if |rest| > 0 && rest[0] == ' ' then rest[1..] else rest;
      [s[..i]] + ParseList(rest')
  }

  /** No item contains a comma. */
  ghost predicate CommaFree(xs: seq<string>)
  {
    forall i :: 0 <= i < |xs| ==> ',' !in xs[i]
  }

  /** Parsing stops the first item at the separator that follows it. */
  lemma ParseAfterItem(head: string, tail: string)
    requires ',' !in head
    ensures ParseList(head + Separator + tail) == [head] + ParseList(tail)
  {
    var s := head + Separator + tail;
    assert s[|head|] == ',';
    var i := FirstIndex(s, ',');
    assert i == |head|;
    assert s[..i] == head;
    assert s[i + 1..] == " " + tail;
    assert (" " + tail)[1..] == tail;
  }

  /**
   Joining with ", " loses nothing when no item contains a comma: parsing
   the joined text gives back exactly the items, in order.
   */
  lemma {:induction false} ParseJoinRoundTrip(xs: seq<string>)
    requires |xs| >= 1 && CommaFree(xs)
    ensures ParseList(Join(Separator, xs)) == xs
  {
    if |xs| == 1 {
      assert ',' !in xs[0];
    } else {
      assert ',' !in xs[0];
      ParseAfterItem(xs[0], Join(Separator, xs[1..]));
      assert CommaFree(xs[1..]) by {
        forall k | 0 <= k < |xs[1..]| ensures ',' !in xs[1..][k] {
          assert xs[1..][k] == xs[k + 1];
        }
      }
      ParseJoinRoundTrip(xs[1..]);
      assert xs == [xs[0]] + xs[1..];
    }
  }
}

=== FILE: record.dfy ===
/**
 Assembly of the record `fetch_paper_details` returns: six fixed keys, in a
 fixed order, with placeholder text wherever extraction found nothing.

 The page scraping itself is not modelled; `Page` holds what it produced.
 */
module PaperRecord {
  import opened Wrappers
  import opened Joining
  import opened Classifier
  import opened Collector

  /** Placeholder for a field extraction could not fill. */
  const NotAvailable: string := "Not Available"

  /** Placeholder for a missing title. */
  const NoTitle: string := "No Title"

  const IdKey: string := "PubmedID"
  const TitleKey: string := "Title"
  const DateKey: string := "Publication Date"
  const AuthorsKey: string := "Non-academic Author(s)"
  const CompaniesKey: string := "Company Affiliation(s)"
  const EmailKey: string := "Corresponding Author Email"

  /** The record's keys in insertion order, which is also the export's column order. */
  const RecordKeys: seq<string> := [IdKey, TitleKey, DateKey, AuthorsKey, CompaniesKey, EmailKey]

  /**
   What the scraping of one article page produced: the title and citation
   text and the corresponding-author email when their elements were found,
   and the author names and affiliation texts in document order.
   */
  datatype Page = Page(
    title: Option<string>,
    citation: Option<string>,
    authors: seq<string>,
    affiliations: seq<string>,
    email: Option<string>)

  /** One key of the returned dictionary with its value. */
  datatype Entry = Entry(key: string, value: string)

  /**
   The value stored under `key`, looking entries up in order. This is the
   model's accessor for records whose keys are distinct (as `RecordKeys`
   are); it returns the first entry with the key, whereas a Python dict
   display with a repeated key would keep the last one.
   */
  function Lookup(r: seq<Entry>, key: string): (v: Option<string>)
    ensures v.Some? <==> exists i :: 0 <= i < |r| && r[i].key == key
  {
    if |r| == 0 then None
    else if r[0].key == key then Some(r[0].value)
    else
      var v := Lookup(r[1..], key);
      assert (exists i :: 0 <= i < |r| && r[i].key == key) <==> (exists i :: 0 <= i < |r[1..]| && r[1..][i].key == key) by {
        if exists i :: 0 <= i < |r| && r[i].key == key {
          var i :| 0 <= i < |r| && r[i].key == key;
          assert r[1..][i - 1] == r[i];
        }
      }
      v
  }

  /** Lookup finds the first entry carrying the key. */
  lemma {:induction false} LookupFindsFirst(r: seq<Entry>, i: nat)
    requires i < |r|
    requires forall j :: 0 <= j < i ==> r[j].key != r[i].key
    ensures Lookup(r, r[i].key) == Some(r[i].value)
  {
    if i > 0 {
      assert r[1..][i - 1] == r[i];
      LookupFindsFirst(r[1..], i - 1);
    }
  }

  /** No key occurs twice, so each key finds its own entry. */
  lemma RecordKeysDistinct()
    ensures forall i, j :: 0 <= i < j < |RecordKeys| ==> RecordKeys[i] != RecordKeys[j]
  {
  }

  /** In a sequence keyed like a record, each key finds the entry at its own position. */
  lemma LookupByRecordKey(r: seq<Entry>)
    requires |r| == |RecordKeys| && forall i :: 0 <= i < |r| ==> r[i].key == RecordKeys[i]
    ensures forall i :: 0 <= i < |r| ==> Lookup(r, RecordKeys[i]) == Some(r[i].value)
  {
    RecordKeysDistinct();
    forall i | 0 <= i < |r| ensures Lookup(r, RecordKeys[i]) == Some(r[i].value) {
      forall j | 0 <= j < i ensures r[j].key != r[i].key {
        assert r[j].key == RecordKeys[j] && r[i].key == RecordKeys[i];
      }
      LookupFindsFirst(r, i);
    }
  }

  /** A multi-valued field: the items joined by ", ", or the placeholder when there are none. */
  function ListField(xs: seq<string>): string
  {
    if |xs| == 0 then NotAvailable else Join(Separator, xs)
  }

  /** Reads a multi-valued field back into its items. */
  function ParseField(f: string): seq<string>
  {
    if f == NotAvailable then [] else ParseList(f)
  }

  /**
   A multi-valued field can be read back into exactly its items, provided no
   item contains a comma and the list is not the single item "Not Available".
   */
  lemma ListFieldRoundTrip(xs: seq<string>)
    requires CommaFree(xs)
    requires xs != [NotAvailable]
    ensures ParseField(ListField(xs)) == xs
  {
    if |xs| > 0 {
      var s := Join(Separator, xs);
      if |xs| == 1 {
        assert s == xs[0];
      } else {
        assert s == xs[0] + Separator + Join(Separator, xs[1..]);
        assert s[|xs[0]|] == ',';
        assert ',' !in NotAvailable;
      }
      assert s != NotAvailable;
      ParseJoinRoundTrip(xs);
    }
  }

  /**
   The placeholder is ambiguous: an empty list and a list holding one author
   literally named "Not Available" give the same field.
   */
  lemma PlaceholderIsAmbiguous()
    ensures ListField([]) == ListField([NotAvailable])
  {
  }

  /**
   An item containing ", " is indistinguishable from two items: the field
   for the single affiliation "Princeton, NJ" equals the field for the two
   items "Princeton" and "NJ".
   */
  lemma CommaInItemIsAmbiguous()
    ensures ListField(["Princeton, NJ"]) == ListField(["Princeton", "NJ"])
  {
  }

  /**
   The email value expression keeps an extracted address as it is and keeps
   the placeholder as the placeholder: it is the identity.
   */
  function EmailField(email: string): (r: string)
    ensures r == email
  {
    if email != NotAvailable then email else NotAvailable
  }

  /**
   The record `fetch_paper_details` returns for `paperId` once its page has
   been scraped, with the classification run under `rules`; the source always
   uses `Standard` (see `PaperDetails`).
   */
  function Assemble(paperId: string, page: Page, rules: Rules): (r: seq<Entry>)
    ensures |r| == |RecordKeys|
    ensures forall i :: 0 <= i < |r| ==> r[i].key == RecordKeys[i]
    ensures Lookup(r, IdKey) == Some(paperId)
    ensures page.title.None? ==> Lookup(r, TitleKey) == Some(NoTitle)
    ensures page.title.Some? ==> Lookup(r, TitleKey) == page.title
    ensures page.citation.None? ==> Lookup(r, DateKey) == Some(NotAvailable)
    ensures page.citation.Some? ==> Lookup(r, DateKey) == page.citation
    ensures page.email.None? ==> Lookup(r, EmailKey) == Some(NotAvailable)
    ensures page.email.Some? ==> Lookup(r, EmailKey) == page.email
    ensures var b := Classified(page.authors, page.affiliations, rules);
      && Lookup(r, AuthorsKey) == Some(ListField(b.nonAcademic))
      && Lookup(r, CompaniesKey) == Some(ListField(b.companies))
  {
    var b := Classified(page.authors, page.affiliations, rules);
    var r := [ Entry(IdKey, paperId),
               Entry(TitleKey, page.title.GetOr(NoTitle)),
               Entry(DateKey, page.citation.GetOr(NotAvailable)),
               Entry(AuthorsKey, ListField(b.nonAcademic)),
               Entry(CompaniesKey, ListField(b.companies)),
               Entry(EmailKey, EmailField(page.email.GetOr(NotAvailable))) ];
    LookupByRecordKey(r);
    assert Lookup(r, RecordKeys[0]) == Some(r[0].value) && Lookup(r, RecordKeys[1]) == Some(r[1].value);
    assert Lookup(r, RecordKeys[2]) == Some(r[2].value) && Lookup(r, RecordKeys[3]) == Some(r[3].value);
    assert Lookup(r, RecordKeys[4]) == Some(r[4].value) && Lookup(r, RecordKeys[5]) == Some(r[5].value);
    r
  }

  /**
   When no author is paired with a commercial-only affiliation, both
   multi-valued fields hold the placeholder.
   */
  lemma NothingCommercialMeansPlaceholders(paperId: string, page: Page, rules: Rules)
    requires forall j :: 0 <= j < |page.authors| && j < |page.affiliations| ==>
               !CommercialOnly(page.affiliations[j], rules)
    ensures Lookup(Assemble(paperId, page, rules), AuthorsKey) == Some(NotAvailable)
    ensures Lookup(Assemble(paperId, page, rules), CompaniesKey) == Some(NotAvailable)
  {
    var b := Classified(page.authors, page.affiliations, rules);
    NonAcademicSelection(page.authors, page.affiliations, rules);
    var idx :| SelectsCommercial(idx, page.authors, page.affiliations, rules, b.nonAcademic, b.companies);
  }

  /** A page whose every affiliation mentions an academic keyword lists nobody. */
  lemma AcademicPageMeansPlaceholders(paperId: string, page: Page, rules: Rules)
    requires forall j :: 0 <= j < |page.affiliations| ==> Mentions(page.affiliations[j], rules.academic)
    ensures Lookup(Assemble(paperId, page, rules), AuthorsKey) == Some(NotAvailable)
    ensures Lookup(Assemble(paperId, page, rules), CompaniesKey) == Some(NotAvailable)
  {
    NothingCommercialMeansPlaceholders(paperId, page, rules);
  }

  /**
   A page with one author and one commercial-only affiliation names both,
   unjoined, in the multi-valued fields.
   */
  lemma SoleCommercialAuthorListed(paperId: string, page: Page, rules: Rules)
    requires |page.authors| == 1 && |page.affiliations| == 1
    requires CommercialOnly(page.affiliations[0], rules)
    ensures Lookup(Assemble(paperId, page, rules), AuthorsKey) == Some(page.authors[0])
    ensures Lookup(Assemble(paperId, page, rules), CompaniesKey) == Some(page.affiliations[0])
  {
    var ps := Zip(page.authors, page.affiliations);
    assert ps == [Pair(page.authors[0], page.affiliations[0])];
    assert ps[..0] == [];
    assert Classify(page.affiliations[0], rules) == NonAcademic;
    assert ByKeywords(rules)(ps[0].affiliation) == NonAcademic;
    assert Collect(ps, ByKeywords(rules)) == File(NoBuckets, ps[0], NonAcademic);
    assert Classified(page.authors, page.affiliations, rules) == Buckets([page.authors[0]], [page.affiliations[0]], []);
  }

  /** With no authors or no affiliations, both multi-valued fields hold the placeholder. */
  lemma NoPairsMeansPlaceholders(paperId: string, page: Page, rules: Rules)
    requires |page.authors| == 0 || |page.affiliations| == 0
    ensures Lookup(Assemble(paperId, page, rules), AuthorsKey) == Some(NotAvailable)
    ensures Lookup(Assemble(paperId, page, rules), CompaniesKey) == Some(NotAvailable)
  {
    NothingCommercialMeansPlaceholders(paperId, page, rules);
  }

  /**
   Read back from the record, the two multi-valued fields give exactly the
   authors and the affiliation texts of the commercial-only pairs, aligned
   and in page order, provided no name or affiliation contains a comma or
   is the placeholder text itself.
   */
  lemma RecordListsReadBack(paperId: string, page: Page, rules: Rules)
    requires CommaFree(page.authors) && CommaFree(page.affiliations)
    requires NotAvailable !in page.authors && NotAvailable !in page.affiliations
    ensures var r := Assemble(paperId, page, rules);
      && Lookup(r, AuthorsKey).Some? && Lookup(r, CompaniesKey).Some?
      && exists idx :: SelectsCommercial(idx, page.authors, page.affiliations, rules,
                                         ParseField(Lookup(r, AuthorsKey).value),
                                         ParseField(Lookup(r, CompaniesKey).value))
  {
    var b := Classified(page.authors, page.affiliations, rules);
    NonAcademicSelection(page.authors, page.affiliations, rules);
    var idx :| SelectsCommercial(idx, page.authors, page.affiliations, rules, b.nonAcademic, b.companies);
    forall k | 0 <= k < |b.nonAcademic|
      ensures ',' !in b.nonAcademic[k] && b.nonAcademic[k] != NotAvailable
      ensures ',' !in b.companies[k] && b.companies[k] != NotAvailable
    {
      assert b.nonAcademic[k] == page.authors[idx[k]] && page.authors[idx[k]] in page.authors;
      assert b.companies[k] == page.affiliations[idx[k]] && page.affiliations[idx[k]] in page.affiliations;
    }
    assert CommaFree(b.nonAcademic) && CommaFree(b.companies);
    assert b.nonAcademic != [NotAvailable] && b.companies != [NotAvailable] by {
      if |b.nonAcademic| == 1 {
        assert b.nonAcademic[0] != NotAvailable && b.companies[0] != NotAvailable;
      }
    }
    ListFieldRoundTrip(b.nonAcademic);
    ListFieldRoundTrip(b.companies);
  }

  /**
   Authors or affiliations beyond the shorter of the two lists do not affect
   the record.
   */
  lemma RecordIgnoresUnpaired(paperId: string, page: Page, rules: Rules)
    ensures var m := Min(|page.authors|, |page.affiliations|);
      Assemble(paperId, page, rules)
        == Assemble(paperId, page.(authors := page.authors[..m], affiliations := page.affiliations[..m]), rules)
  {
    UnpairedEntriesIgnored(page.authors, page.affiliations, rules);
  }

  /** Whatever the page held, the record has the same six keys in the same order. */
  lemma FixedSchema(id1: string, page1: Page, rules1: Rules, id2: string, page2: Page, rules2: Rules)
    ensures |Assemble(id1, page1, rules1)| == |Assemble(id2, page2, rules2)| == 6
    ensures forall i :: 0 <= i < 6 ==> Assemble(id1, page1, rules1)[i].key == Assemble(id2, page2, rules2)[i].key
  {
  }

  /** `fetch_paper_details` after the scraping: the record under the source's fixed keyword sets. */
  function PaperDetails(paperId: string, page: Page): seq<Entry>
  {
    Assemble(paperId, page, Standard)
  }
}

=== FILE: scenarios.dfy ===
/**
 Concrete affiliations run through the source's fixed keyword sets: a
 commercial affiliation, an academic one, and the substring quirk by which
 "inc" matches inside "Princeton".
 */
module Scenarios {
  import opened Wrappers
  import opened Strings
  import opened Classifier
  import opened Collector
  import opened PaperRecord

  const Acme: string := "Acme Pharmaceuticals Inc"
  const Oncology: string := "Department of Oncology, Example University"
  const Princeton: string := "Princeton, NJ"

  /** "Acme Pharmaceuticals Inc" has no 'v', so it does not name a university. */
  lemma AcmeLacksUniversity()
    ensures !CaselessOccurs(Acme, AcademicKeywords[0])
  {
    MissingLetter(Acme, AcademicKeywords[0], 3);
  }

  /** "Acme Pharmaceuticals Inc" has no 'd', so it does not name a department. */
  lemma AcmeLacksDepartment()
    ensures !CaselessOccurs(Acme, AcademicKeywords[3])
  {
    MissingLetter(Acme, AcademicKeywords[3], 0);
  }

  /** "Acme Pharmaceuticals Inc" has no 'o' (college, school, hospital). */
  lemma AcmeLacksO(j: nat)
    requires j == 1 || j == 4 || j == 6
    ensures !CaselessOccurs(Acme, AcademicKeywords[j])
  {
    var kw := AcademicKeywords[j];
    var k := if j == 4 then 3 else 1;
    assert kw[k] == 'o';
    MissingLetter(Acme, kw, k);
  }

  /** "Pharmaceuticals Inc" has no 'n' before the space and no 's' after it. */
  lemma PharmaceuticalsIncLacksInstitute()
    ensures !CaselessOccurs("Pharmaceuticals" + [' '] + "Inc", AcademicKeywords[2])
  {
    var kw := AcademicKeywords[2];
    SplitAtForeignChar("Pharmaceuticals", ' ', "Inc", kw);
    MissingLetter("Pharmaceuticals", kw, 1);
    MissingLetter("Inc", kw, 2);
  }

  /** "institute" fits in none of the space-separated words of "Acme Pharmaceuticals Inc". */
  lemma AcmeLacksInstitute()
    ensures !CaselessOccurs(Acme, AcademicKeywords[2])
  {
    var kw := AcademicKeywords[2];
    assert Acme == "Acme" + [' '] + ("Pharmaceuticals" + [' '] + "Inc");
    SplitAtForeignChar("Acme", ' ', "Pharmaceuticals" + [' '] + "Inc", kw);
    MissingLetter("Acme", kw, 2);
    PharmaceuticalsIncLacksInstitute();
  }

  /** "research center" is longer than every stretch of "Acme Pharmaceuticals Inc" between two 'm's. */
  lemma AcmeLacksResearchCenter()
    ensures !CaselessOccurs(Acme, AcademicKeywords[5])
  {
    var kw := AcademicKeywords[5];
    assert Acme == "Ac" + ['m'] + ("e Phar" + ['m'] + "aceuticals Inc");
    SplitAtForeignChar("Ac", 'm', "e Phar" + ['m'] + "aceuticals Inc", kw);
    SplitAtForeignChar("e Phar", 'm', "aceuticals Inc", kw);
  }

  /** "Acme Pharmaceuticals Inc" names a company and no academic institution. */
  lemma AcmeIsCommercialOnly()
    ensures CommercialOnly(Acme, Standard)
  {
    assert CaselessAt(Acme, NonAcademicKeywords[0], 5);
    AcmeLacksInstitute();
    AcmeLacksResearchCenter();
    AcmeLacksUniversity();
    AcmeLacksDepartment();
    AcmeLacksO(1);
    AcmeLacksO(4);
    AcmeLacksO(6);
  }

  /**
   A page whose one author, Jane Doe, is affiliated with "Acme
   Pharmaceuticals Inc" yields a record naming her and that company.
   */
  lemma JaneDoeAtAcme(paperId: string, page: Page)
    requires page.authors == ["Jane Doe"] && page.affiliations == [Acme]
    ensures Lookup(PaperDetails(paperId, page), AuthorsKey) == Some("Jane Doe")
    ensures Lookup(PaperDetails(paperId, page), CompaniesKey) == Some(Acme)
  {
    AcmeIsCommercialOnly();
    SoleCommercialAuthorListed(paperId, page, Standard);
  }

  /** An oncology department of a university mentions an academic keyword. */
  lemma OncologyIsAcademic()
    ensures Mentions(Oncology, Standard.academic)
  {
    assert CaselessAt(Oncology, AcademicKeywords[3], 0);
  }

  /** So an author affiliated only with it is not listed as non-academic. */
  lemma OncologyAuthorNotListed(paperId: string, page: Page)
    requires |page.authors| == 1 && page.affiliations == [Oncology]
    ensures Lookup(PaperDetails(paperId, page), AuthorsKey) == Some(NotAvailable)
    ensures Lookup(PaperDetails(paperId, page), CompaniesKey) == Some(NotAvailable)
  {
    OncologyIsAcademic();
    forall j | 0 <= j < |page.affiliations| ensures Mentions(page.affiliations[j], Standard.academic) {
      assert page.affiliations[j] == Oncology;
    }
    AcademicPageMeansPlaceholders(paperId, page, Standard);
  }

  /** "Princeton, NJ" has no 's', so it names no institute, school or research center. */
  lemma PrincetonLacksS(j: nat)
    requires j == 2 || j == 4 || j == 5
    ensures !CaselessOccurs(Princeton, AcademicKeywords[j])
  {
    var kw := AcademicKeywords[j];
    var k := if j == 4 then 0 else 2;
    assert kw[k] == 's';
    MissingLetter(Princeton, kw, k);
  }

  /** "Princeton, NJ" has no 'u', 'l', 'd' or 'h', which rules out the other academic keywords. */
  lemma PrincetonLacksOthers(j: nat)
    requires j == 0 || j == 1 || j == 3 || j == 6
    ensures !CaselessOccurs(Princeton, AcademicKeywords[j])
  {
    var kw := AcademicKeywords[j];
    var k := if j == 1 then 2 else 0;
    MissingLetter(Princeton, kw, k);
  }

  /**
   The keyword "inc" is matched as a bare substring, so a place name such as
   "Princeton, NJ" counts as a company affiliation.
   */
  lemma PrincetonCountsAsCompany()
    ensures CommercialOnly(Princeton, Standard)
  {
    assert CaselessAt(Princeton, NonAcademicKeywords[2], 2);
    forall j | 0 <= j < |AcademicKeywords| ensures !CaselessOccurs(Princeton, AcademicKeywords[j]) {
      if j == 2 || j == 4 || j == 5 {
        PrincetonLacksS(j);
      } else {
        PrincetonLacksOthers(j);
      }
    }
  }
}

=== FILE: strings.dfy ===
/**
 Text primitives the affiliation classifier is built on: ASCII lower-casing,
 plain substring search, and substring search that ignores ASCII case.
 Strings are sequences of characters; no Unicode case folding is modelled.
 */
module Strings {

  /** Maps 'A'..'Z' to 'a'..'z' and leaves every other character alone. */
  function LowerChar(c: char): (d: char)
    ensures !('A' <= d <= 'Z')
    ensures 'A' <= c <= 'Z' ==> 'a' <= d <= 'z'
  {
    if 'A' <= c <= 'Z' then (c as int + 32) as char else c
  }

  /**
   Two characters match under case folding exactly when they are equal or
   are the same ASCII letter in the other case.
   */
  lemma CaselessChar(x: char, y: char)
    ensures LowerChar(x) == LowerChar(y) <==>
      || x == y
      || ('a' <= x <= 'z' && y as int == x as int - 32)
      || ('a' <= y <= 'z' && x as int == y as int - 32)
  {
  }

  /** Lower-cases every character of `s`, keeping length and positions. */
  function Lower(s: string): (r: string)
    ensures |r| == |s|
    ensures forall i :: 0 <= i < |s| ==> r[i] == LowerChar(s[i])
  {
    if |s| == 0 then [] else [LowerChar(s[0])] + Lower(s[1..])
  }

  /** `pat` sits in `text` starting at index `i`. */
  ghost predicate OccursAt(text: string, pat: string, i: int)
  {
    0 <= i && i + |pat| <= |text| && text[i..i + |pat|] == pat
  }

  /** `pat` is a substring of `text`. */
  ghost predicate Occurs(text: string, pat: string)
  {
    exists i :: OccursAt(text, pat, i)
  }

  lemma OccursAtShift(text: string, pat: string, i: int)
    requires |text| > 0 && 0 <= i
    ensures OccursAt(text[1..], pat, i) <==> OccursAt(text, pat, i + 1)
  {
    if 0 <= i && i + |pat| <= |text| - 1 {
      assert text[1..][i..i + |pat|] == text[i + 1..i + 1 + |pat|];
    }
  }

  lemma {:induction false} OccursDropFirst(text: string, pat: string)
    requires |text| > 0
    requires !OccursAt(text, pat, 0)
    ensures Occurs(text, pat) <==> Occurs(text[1..], pat)
  {
    if Occurs(text, pat) {
      var i :| OccursAt(text, pat, i);
      assert i >= 1;
      OccursAtShift(text, pat, i - 1);
    }
    if Occurs(text[1..], pat) {
      var i :| OccursAt(text[1..], pat, i);
      OccursAtShift(text, pat, i);
    }
  }

  /**
   Substring search by scanning start positions left to right; decides
   exactly the `Occurs` relation.
   */
  function Contains(text: string, pat: string): (r: bool)
    ensures r <==> Occurs(text, pat)
    decreases |text|
  {
    if pat <= text then
      assert OccursAt(text, pat, 0);
      true
    else if |text| == 0 then
      false
    else
      assert !OccursAt(text, pat, 0);
      OccursDropFirst(text, pat);
      Contains(text[1..], pat)
  }

  /**
   `pat` sits in `text` at index `i` when each pair of aligned characters is
   equal after lower-casing: the character-by-character meaning of a
   case-insensitive match.
   */
  ghost predicate CaselessAt(text: string, pat: string, i: int)
  {
    && 0 <= i && i + |pat| <= |text|
    && forall k :: 0 <= k < |pat| ==> LowerChar(text[i + k]) == LowerChar(pat[k])
  }

  /** `pat` occurs somewhere in `text`, ignoring ASCII case. */
  ghost predicate CaselessOccurs(text: string, pat: string)
  {
    exists i :: CaselessAt(text, pat, i)
  }

  lemma CaselessAtIsLowerOccursAt(text: string, pat: string, i: int)
    ensures CaselessAt(text, pat, i) <==> OccursAt(Lower(text), Lower(pat), i)
  {
    var lt, lp := Lower(text), Lower(pat);
    if 0 <= i && i + |pat| <= |text| {
      if CaselessAt(text, pat, i) {
        assert lt[i..i + |pat|] == lp by {
          forall k | 0 <= k < |pat| ensures lt[i..i + |pat|][k] == lp[k] {
            assert lt[i..i + |pat|][k] == lt[i + k];
          }
        }
      }
      if OccursAt(lt, lp, i) {
        forall k | 0 <= k < |pat| ensures LowerChar(text[i + k]) == LowerChar(pat[k]) {
          assert lt[i..i + |pat|][k] == lt[i + k];
        }
      }
    }
  }

  /**
   Case-insensitive substring search: lower-case both sides, then search.
   Decides exactly the character-wise caseless relation.
   */
  function ContainsIgnoringCase(text: string, pat: string): (r: bool)
    ensures r <==> CaselessOccurs(text, pat)
  {
    var found := Contains(Lower(text), Lower(pat));
    if found then
      assert CaselessOccurs(text, pat) by {
        var i :| OccursAt(Lower(text), Lower(pat), i);
        CaselessAtIsLowerOccursAt(text, pat, i);
      }
      true
    else
      assert !CaselessOccurs(text, pat) by {
        forall i | CaselessAt(text, pat, i) ensures false {
          CaselessAtIsLowerOccursAt(text, pat, i);
        }
      }
      false
  }

  /**
   A pattern cannot occur caselessly in a text that lacks, in either case,
   one of the pattern's letters.
   */
  lemma MissingLetter(text: string, pat: string, k: nat)
    requires k < |pat| && 'a' <= pat[k] <= 'z'
    requires pat[k] !in text && (pat[k] as int - 32) as char !in text
    ensures !CaselessOccurs(text, pat)
  {
    forall i | 0 <= i && i + |pat| <= |text| ensures !CaselessAt(text, pat, i) {
      assert text[i + k] in text;
    }
  }

  /**
   A character that matches no character of the pattern splits the search:
   an occurrence in `a + [c] + b` is an occurrence in `a` or in `b`.
   */
  lemma SplitAtForeignChar(a: string, c: char, b: string, pat: string)
    requires forall x :: x in pat ==> LowerChar(x) != LowerChar(c)
    ensures CaselessOccurs(a + [c] + b, pat) ==> CaselessOccurs(a, pat) || CaselessOccurs(b, pat)
  {
    var t := a + [c] + b;
    forall i | CaselessAt(t, pat, i) && i + |pat| <= |a| ensures CaselessAt(a, pat, i) {
      forall k | 0 <= k < |pat| ensures LowerChar(a[i + k]) == LowerChar(pat[k]) {
        assert t[i + k] == a[i + k];
      }
    }
    forall i | CaselessAt(t, pat, i) && i > |a| ensures CaselessAt(b, pat, i - |a| - 1) {
      forall k | 0 <= k < |pat| ensures LowerChar(b[i - |a| - 1 + k]) == LowerChar(pat[k]) {
        assert t[i + k] == b[i - |a| - 1 + k];
      }
    }
    forall i | 0 <= i <= |a| < i + |pat| ensures !CaselessAt(t, pat, i) {
      var k := |a| - i;
      assert t[i + k] == c && pat[k] in pat;
      assert LowerChar(t[i + k]) != LowerChar(pat[k]);
    }
  }
}

=== FILE: wrappers.dfy ===
/** The optional value used for page fields that extraction may fail to find. */
module Wrappers {

  datatype Option<+T> = None | Some(value: T) {

    /** The value when present, otherwise the given default. */
    function GetOr(default: T): T
    {
      match this
      case Some(v) => v
      case None => default
    }
  }
}
